=== FILE: README.md ===
# inky-gallery: one wake cycle of the picture frame

inky-gallery is a MicroPython program for an Inky Frame e-paper panel. At
each wake it does the following:

1. It fetches the current picture from an HTTPS endpoint. The request is a
   conditional GET: the validator saved from the response header `etag` is
   sent as `If-None-Match`.
2. It commits the body to the SD card through a temporary file and a rename.
3. It picks a renderer from the name in `Content-Disposition`. A packed
   4-bit raw frame (`.bin`) is unpacked pixel by pixel. A JPEG is decoded
   with dithering unless its name says it is already dithered.
4. It saves the validator only after a new picture was shown.

This project models that cycle in Dafny: the `fetch`, `display_bin`,
`display_image` (the dither choice only), `loop`, `load_state` and
`save_state` functions of `main.py`. It proves what each of them promises.

Modules, one per file:

- `Common` (`common.dfy`): `Option`, bytes, and `str.endswith` and the
  substring `in` test as predicates.
- `StateStore` (`state_store.dfy`): the state dictionary and the state file.
  - `load_state` catches only OSError.
  - A file holding a JSON object replaces the default `{"etag": None}`.
  - Any other valid JSON leaves the default in place.
  - Malformed JSON raises a ValueError that nothing catches.
- `Suffix` (`suffix.dfy`): the ordered suffix table
  `[".dithered.jpg", ".jpg", ".bin"]`, which maps a disposition value to
  `/sd/latest<ext>`. `Classify` and `Destination` are an independent
  definition of the same thing, written most-specific-first.
- `Transfer` (`transfer.dfy`): the 1024-byte copy loop.
  - It is written as a method, `CopyBody`, over the sequence of results that
    successive `res.raw.read(1024)` calls return.
  - `Drain` is a recursive reference definition of the same loop.
  - Once the sequence is exhausted, every further read returns `b""`.
- `Fetcher` (`fetcher.dfy`): `fetch` as a pure function.
  - Inputs: the configuration, the state dictionary, the file system (a map
    from path to bytes) and the reply that `requests.get` produced.
  - Outputs: the returned filename, the mutated state, the new file system
    and the request that was issued.
  - Response headers form a map keyed exactly as received. The lookups of
    `"etag"` and `"Content-Disposition"` are literal, as in the source.
- `RawFrame` (`raw_frame.dfy`): `display_bin`.
  - It is written as a method with the source's nested loops.
  - `UnpackFrame` is a closed-form definition of the frame it paints.
  - The frame is a map from `(x, y)` to pen.
- `Cycle` (`cycle.dfy`): the part of `loop` after the network is up.
  - A `None` or empty configuration skips the cycle.
  - A corrupt state file crashes it.
  - Otherwise it fetches, and only when a name came back does it render and
    save the state.
  - Four example cycles are proved as lemmas: a fresh JPEG, the same with
    the validator header spelled `ETag`, a 304, and an unsupported `.xyz`
    disposition.

`main.py` behaves as follows in cases a reader might not expect, and the
model does the same:

- A state file with malformed JSON is not treated as "no validator".
  `json.loads` raises ValueError, `load_state` catches only OSError, so the
  cycle ends in `Crashed`.
- Configuration fields are only checked for presence (`'host' in config`).
  An empty string passes.
- The suffix test is `endswith` on the whole `Content-Disposition` value.
  No file name is extracted from it.
- A raw file that is too short is not an error. `f.read` returns fewer bytes
  and fewer pixels are painted (`ShortFileKeepsFrame`).
- A transport failure makes `fetch` return `None`. It does not report a
  distinct error.
- The validator is read with `res.headers.get('etag')`, a literal lookup in
  the header dictionary. A server that spells the header `ETag` has its
  picture committed and shown, but the saved validator is `None`. Every
  later request is then unconditional (`CapitalisedETagIsLost`).

## Model

| member | source | states |
|---|---|---|
| Fetcher.BuildRequest | main.py:126-137 | The request carries `Authorization` from the config, and `If-None-Match` exactly when the stored validator is truthy, holding that validator. No other header is sent. |
| Fetcher.Rename | main.py:180-181 | The destination takes the temporary file's contents and the temporary name disappears. Every other path is untouched. |
| Fetcher.Fetch | main.py:111-187 | A missing `host`, `path` or `authorization` issues nothing and changes nothing. Otherwise exactly one GET to `https://host+path` is issued. With no 200, the state and files are unchanged and `None` is returned. A 200 overwrites the in-memory validator, even with `None`, and leaves the other keys alone. An unsupported disposition writes nothing. A returned name is the resolved destination, which holds the complete body, and the temporary file is gone. A supported 200 with a complete copy always returns that name. No path other than the temporary file and the destination ever changes, and the temporary file survives only holding an interrupted copy. An interrupted copy on a supported 200 leaves exactly the buffers read so far in `/sd/latest.tmp`, and nothing else changes. |
| Suffix.FirstMatchFrom | main.py:154-157 | The scan returns the first table index whose extension the value ends with. No earlier entry matches. `None` means no entry matches. |
| Suffix.Resolve | main.py:153-161 | A destination is chosen exactly when the disposition ends with one of the three extensions. |
| Suffix.ResolveMatchesClassify | main.py:153-157 | Resolution through the ordered table agrees with the most-specific-first kind classification and its fixed destinations. |
| Suffix.MostSpecificWins | main.py:154-156 | A `.dithered.jpg` name also ends in `.jpg`, yet it resolves to `/sd/latest.dithered.jpg`. |
| Suffix.UnsupportedResolvesToNone | main.py:159-161 | A value ending in none of the three extensions is unsupported. |
| Suffix.ResolvedNameKeepsSuffix | main.py:154-157 | A resolved name is one of the three destinations, and it ends in `.bin` exactly when the disposition does. |
| Transfer.CopyBody | main.py:166-175 | The read/write loop writes exactly what the reference copy `Drain` defines, and reports completion the same way. |
| Transfer.DrainStopsAtShortRead | main.py:170-175 | The file holds exactly the buffers up to and including the first short read, whatever the stream holds afterwards. |
| Transfer.DrainExhausted | main.py:170-175 | A stream of full buffers ends at the empty read, and everything delivered is stored. |
| Transfer.DrainFailure | main.py:170-187 | An OSError after full reads leaves the earlier buffers in the temporary file and the copy incomplete. |
| Transfer.DrainChunked | main.py:166-175 | Copying a well-behaved stream stores the body byte for byte, whatever its length, multiples of 1024 included. |
| RawFrame.RowStartOffset | main.py:95-98 | Row `y` begins at byte `64 + y * (width / 2)`. |
| RawFrame.DisplayBin | main.py:93-104 | The nested loops paint exactly the frame `UnpackFrame` describes. |
| RawFrame.NibblesOfByte | main.py:100-104 | Both pens are in 0..15 and together recompose the byte: low nibble plus 16 times high nibble. |
| RawFrame.UnpackedPixelPair | main.py:97-104 | Byte `x` of row `y` paints `(2x, y)` with its low nibble and `(2x+1, y)` with its high nibble. |
| RawFrame.UnpackedLeavesOthers | main.py:97-104 | A position no byte reaches keeps the buffer's previous pen. |
| RawFrame.UnpackedPensAndBounds | main.py:90-104 | Every pixel painted lies in `[0, width) x [0, height)` and carries a pen in 0..15. |
| RawFrame.HeaderIgnored | main.py:93-95 | Two files of equal length that agree from byte 64 on paint the same frame, so the header never matters. |
| RawFrame.UnpackIdempotent | main.py:93-104 | Drawing the same file twice gives the same frame as drawing it once. |
| RawFrame.ShortFileKeepsFrame | main.py:93-104 | A file holding no more than the header paints nothing. |
| RawFrame.FullFilePaintsPanel | main.py:97-104 | A file of at least `64 + height * (width / 2)` bytes paints every pixel of `[0, 2*(width/2)) x [0, height)`. |
| StateStore.LoadState | main.py:35-48 | Only malformed JSON makes loading fail. A state with a validator can only have come from a stored JSON object, because the default has none. |
| StateStore.SaveState | main.py:51-59 | Saving always writes the whole dictionary as one JSON object. |
| StateStore.SaveLoadRoundTrip | main.py:35-59 | Loading a saved state gives it back, `None` validator included. |
| StateStore.LoadFallback | main.py:35-48 | An unreadable file and a non-object document yield `{"etag": None}`. Only malformed JSON fails. |
| Cycle.RunCycle | main.py:204-216 | A `None` or empty configuration skips the cycle, and a corrupt state file crashes it. A finished cycle keeps the files and request `fetch` left, and renders exactly when `fetch` returned a name. The state file changes only after a 200 whose body was copied completely, and only in a cycle that renders; it then records the 200's validator. With no 200, nothing is written, rendered or saved. |
| Cycle.DitherFor | main.py:74-76 | A name ending in `.dithered.jpg` is never dithered again. |
| Cycle.Dispatch | main.py:210-214 | A committed file is always shown. The raw unpacker is used exactly for names ending in `.bin`, and a JPEG is decoded from the committed path itself. |
| Cycle.DispatchByKind | main.py:210-214 | `.bin` goes to the raw unpacker. `/sd/latest.dithered.jpg` is decoded without dithering (the `"dithered" in filename` test at lines 74-76), and `/sd/latest.jpg` with dithering. |
| Cycle.CycleRendersByKind | main.py:209-214 | A rendering cycle shows the committed body with the renderer that the disposition's kind calls for. |
| Cycle.NextCycleIsConditional | main.py:208-216 | A 200 with a supported disposition, a complete body and a truthy validator is rendered. The next cycle then sends that validator as `If-None-Match`, whatever it gets back. |
| Cycle.CycleAfterCommit | main.py:209-216 | When `fetch` returns a name, the cycle finishes with `fetch`'s files and request. The saved state file loads back as exactly the state `fetch` left. The returned path holds the copied body, and that path is what gets rendered. |
| Cycle.ScenarioFreshJpeg | main.py:204-216 | A first run against a 500-byte `photo.jpg` whose validator arrives in a lower-case `etag` header sends no `If-None-Match`. It stores the body byte for byte as `/sd/latest.jpg`, removes the temporary file, decodes with dithering and saves the validator `"abc"`. |
| Cycle.CapitalisedETagIsLost | main.py:150 | The same first run with the header spelled `ETag` still commits the body as `/sd/latest.jpg`, removes the temporary file, and shows the picture. The saved validator is `None`, and the next cycle sends no `If-None-Match` whatever its reply. |
| Cycle.ScenarioNotModified | main.py:144-147 | A 304 to the stored validator writes nothing, renders nothing and keeps the saved validator. |
| Cycle.ScenarioUnsupported | main.py:159-161 | An unsupported `.xyz` disposition writes and renders nothing. The new validator is dropped with the cycle. |

## Left out

- `load_config` is not modelled: it mounts the SD card over SPI, reads the file and parses the JSON. The cycle takes the parsed dictionary, or `None`, as input.
- Configuration and state values are modelled as strings (state values may also be `null`), because the cycle only looks up and compares them. Other JSON types are not modelled.
- The Wi-Fi connection and the `secrets` ImportError are not modelled; the model starts after them.
- `time.sleep`, `gc`, the LEDs, `print`, the final `os.umount` and the entry point that calls `loop` are not modelled, because they carry no state the cycle uses.
- `requests.get` is replaced by its outcome. That is either an OSError (`Unreachable`) or a response with status, headers and a stream of read results. TLS, DNS and HTTP parsing are not modelled.
- The JPEG decoder and `graphics.update()` are not modelled: for a JPEG only the path and the dither flag passed to `decode` are modelled. The PicoGraphics buffer is a map from position to pen.
- Cycle.RunCycle: rendering is taken to always succeed. In the source, an exception raised inside `display_image` or `display_bin` escapes `loop` before `save_state`, so the validator is not saved. No handler in the entry point catches it, so the program stops. The model saves the state in every cycle that renders.
- `Fetcher.Fetch` requires a `Content-Disposition` header on a 200 (`ReplyWellFormed`). Without one the source raises AttributeError, which escapes `loop`, and that path is not modelled.
- OSErrors from opening, writing or renaming on the SD card are not modelled. Only the transport and the body reads can fail. `save_state` is modelled as always succeeding, so its caught write failure is not modelled either.
- StateStore.SaveLoadRoundTrip: `json.dumps` in `save_state` and `json.loads` in `load_state` are taken to be exact inverses on objects whose values are strings or `null`. `SaveState` stores the dictionary itself rather than its JSON text, so the round trip holds by construction. Text encoding, escaping and key order are not modelled.
- `Fetcher.Rename` models `os.rename` as one atomic update of the file system, so a power loss in the middle of it is not modelled.
- `res.close()` is not modelled, so a response left open on an early return is not modelled either.
- `RawFrame.DisplayBin` takes the row length as `width / 2` on a natural number. The source's `int(WIDTH/2)` is a float division followed by truncation, which agrees for every width below 2^24 (MicroPython floats are single precision on this board), so for every real panel.
- `RawFrame.DisplayBin` takes the panel size and starting buffer as parameters. The source reads them from a freshly created PicoGraphics object.

=== FILE: common.dfy ===
/** Shared vocabulary of the photo-frame model: optional values, bytes and the
    two string tests the program relies on (`str.endswith` and `in`). */
module Common {

  /** A byte as read from a file or a socket; the program only ever masks and
      shifts it, which bit-vector operations model directly. */
  type byte = bv8

  /** Python's `None` or a value. */
  datatype Option<+T> = None | Some(value: T)

  /** Python's `s.endswith(suffix)`. */
  predicate EndsWith(s: string, suffix: string)
  {
    |suffix| <= |s| && s[|s| - |suffix|..] == suffix
  }

  /** `sub` occurs in `s` starting at index `i`. */
  predicate OccursAt(s: string, sub: string, i: int)
  {
    0 <= i && i + |sub| <= |s| && s[i..i + |sub|] == sub
  }

  /** Python's `sub in s` on strings. */
  predicate Contains(s: string, sub: string)
  {
    exists i | 0 <= i <= |s| :: OccursAt(s, sub, i)
  }

  /** Appending a suffix makes a string end with it. */
  lemma EndsWithAppended(prefix: string, suffix: string)
    ensures EndsWith(prefix + suffix, suffix)
  {
    assert (prefix + suffix)[|prefix|..] == suffix;
  }

  /** Ending with `longer` implies ending with every suffix of `longer`. */
  lemma EndsWithTransitive(s: string, longer: string, shorter: string)
    requires EndsWith(s, longer)
    requires EndsWith(longer, shorter)
    ensures EndsWith(s, shorter)
  {
    var k := |s| - |shorter|;
    forall i | 0 <= i < |shorter|
      ensures s[k..][i] == shorter[i]
    {
      assert s[k + i] == s[|s| - |longer|..][|longer| - |shorter| + i];
    }
  }

  /** A string with no letter `c` in it contains no string whose second
      character is `c`. */
  lemma NotContainsWithoutSecond(s: string, sub: string)
    requires |sub| >= 2
    requires forall i | 0 <= i < |s| :: s[i] != sub[1]
    ensures !Contains(s, sub)
  {
    forall i | 0 <= i <= |s|
      ensures !OccursAt(s, sub, i)
    {
      if i + |sub| <= |s| {
        assert s[i..i + |sub|][1] == s[i + 1];
      }
    }
  }
}

=== FILE: cycle.dfy ===
/** One wake cycle of `loop`: load the state, fetch, and only when a file was
    committed, render it and save the state. Wi-Fi, mounting, LEDs, sleeping
    and the JPEG decoder itself stay outside the model. */
module Cycle {
  import opened Common
  import opened StateStore
  import Suffix
  import Transfer
  import opened Fetcher
  import RawFrame

  /** What the panel is asked to show this cycle. */
  datatype Render =
    | NoRender                              // the previous picture stays
    | RawImage(frame: RawFrame.Frame)       // `display_bin`
    | Jpeg(path: string, dither: bool)      // `display_image`, decoded elsewhere

  /** The panel as the driver reports it, and the buffer a fresh driver
      object starts from. */
  datatype Panel = Panel(width: nat, height: nat, buffer: RawFrame.Frame)

  /** How one call of `loop` ends. */
  datatype Outcome =
    | Skipped                               // no usable configuration
    | Crashed                               // ValueError from `load_state` escapes `loop`
    | Finished(stateFile: StateFile, fs: FileSystem, render: Render, sent: Option<Request>)

  /** `display_image` dithers unless the name says the picture already is. */
  function DitherFor(filename: string): (dither: bool)
    // a name carrying the pre-dithered suffix is never dithered again
    ensures EndsWith(filename, ".dithered.jpg") ==> !dither
  {
    DitheredSuffixNamesDithered(filename);
    !Contains(filename, "dithered")
  }

  /** A name ending in `.dithered.jpg` contains `"dithered"`. */
  lemma DitheredSuffixNamesDithered(filename: string)
    ensures EndsWith(filename, ".dithered.jpg") ==> Contains(filename, "dithered")
  {
    if EndsWith(filename, ".dithered.jpg") {
      assert filename[|filename| - 13..][1..9] == "dithered";
      assert OccursAt(filename, "dithered", |filename| - 12);
    }
  }

  /** The renderer choice of `loop` for a committed file. */
  function Dispatch(filename: string, fs: FileSystem, panel: Panel): (r: Render)
    requires filename in fs
    // something is always shown; the raw unpacker exactly for `.bin` names
    ensures !r.NoRender?
    ensures r.RawImage? <==> EndsWith(filename, ".bin")
    ensures r.Jpeg? ==> r.path == filename
  {
    if EndsWith(filename, ".bin") then
      RawImage(RawFrame.UnpackFrame(panel.buffer, fs[filename], panel.width, panel.height))
    else
      Jpeg(filename, DitherFor(filename))
  }

  /** Python truthiness of the value `load_config` returned. */
  predicate ConfigUsable(config: Option<Config>)
  {
    config.Some? && config.value != map[]
  }

  /** One call of `loop` after the network is up. */
  function RunCycle(config: Option<Config>, stateFile: StateFile, fs: FileSystem, reply: Reply, panel: Panel): (out: Outcome)
    requires ReplyWellFormed(reply)
    ensures !ConfigUsable(config) ==> out == Skipped
    ensures ConfigUsable(config) && stateFile == Corrupt ==> out == Crashed
    ensures ConfigUsable(config) && stateFile != Corrupt ==> out.Finished?
    // the persisted state changes only in a cycle that renders a new file
    ensures out.Finished? && out.render.NoRender? ==> out.stateFile == stateFile
    // ... and then it records the validator of the 200 response
    ensures out.Finished? && !out.render.NoRender? ==>
              && reply.Answered? && reply.response.status == 200
              && LoadState(out.stateFile).Loaded?
              && Etag(LoadState(out.stateFile).state) == Header(reply.response.headers, "etag")
    // the cycle keeps `fetch`'s files and request, and renders exactly when
    // `fetch` returned a name
    ensures out.Finished? ==>
              var r := Fetch(config.value, LoadState(stateFile).state, fs, reply);
              && out.fs == r.fs && out.sent == r.sent
              && (out.render.NoRender? <==> r.filename.None?)
    // the state is saved only after a complete body was committed
    ensures out.Finished? && out.stateFile != stateFile ==>
              && reply.Answered? && reply.response.status == 200
              && Transfer.Drain(reply.response.body).complete
    // no fresh body: nothing is written, rendered or saved
    ensures out.Finished? && (reply.Unreachable? || reply.response.status != 200) ==>
              out.stateFile == stateFile && out.fs == fs && out.render == NoRender
  {
    if !ConfigUsable(config) then Skipped
    else
      match LoadState(stateFile)
      case Uncaught => Crashed
      case Loaded(state) =>
        var r := Fetch(config.value, state, fs, reply);
        match r.filename
        case None => Finished(stateFile, r.fs, NoRender, r.sent)
        case Some(name) =>
          SaveLoadRoundTrip(r.state);
          Finished(SaveState(r.state), r.fs, Dispatch(name, r.fs, panel), r.sent)
  }

  /** Each artifact kind reaches its own renderer: the raw file is unpacked,
      the dithered JPEG is decoded without dithering, the plain JPEG with. */
  lemma DispatchByKind(kind: Suffix.Kind, fs: FileSystem, panel: Panel)
    requires Suffix.Destination(kind) in fs
    ensures var name := Suffix.Destination(kind);
            Dispatch(name, fs, panel) == match kind
              case RawPacked => RawImage(RawFrame.UnpackFrame(panel.buffer, fs[name], panel.width, panel.height))
              case CompressedDithered => Jpeg(name, false)
              case CompressedStandard => Jpeg(name, true)
  {
    var name := Suffix.Destination(kind);
    match kind
    case RawPacked =>
      assert name[|name| - 4..] == ".bin";
    case CompressedDithered =>
      assert name[|name| - 4..] != ".bin";
      assert OccursAt(name, "dithered", 11);
    case CompressedStandard =>
      assert name[|name| - 4..] != ".bin";
      assert forall i | 0 <= i < |name| :: name[i] != 'i';
      NotContainsWithoutSecond(name, "dithered");
  }

  /** A rendering cycle shows the committed file with the renderer its
      disposition's kind calls for. */
  lemma CycleRendersByKind(config: Option<Config>, stateFile: StateFile, fs: FileSystem, reply: Reply, panel: Panel)
    requires ReplyWellFormed(reply)
    requires RunCycle(config, stateFile, fs, reply, panel).Finished?
    requires !RunCycle(config, stateFile, fs, reply, panel).render.NoRender?
    ensures var out := RunCycle(config, stateFile, fs, reply, panel);
            var kind := Suffix.Classify(reply.response.headers["Content-Disposition"]);
            && kind.Some?
            && var name := Suffix.Destination(kind.value);
            && name in out.fs
            && out.fs[name] == Transfer.Drain(reply.response.body).data
            && out.render == match kind.value
                 case RawPacked => RawImage(RawFrame.UnpackFrame(panel.buffer, out.fs[name], panel.width, panel.height))
                 case CompressedDithered => Jpeg(name, false)
                 case CompressedStandard => Jpeg(name, true)
  {
    var state := LoadState(stateFile).state;
    var r := Fetch(config.value, state, fs, reply);
    var hint := reply.response.headers["Content-Disposition"];
    Suffix.ResolveMatchesClassify(hint);
    DispatchByKind(Suffix.Classify(hint).value, r.fs, panel);
  }

  /** A 200 with a supported disposition, a complete body and a truthy
      validator is rendered, and its validator is sent back as
      `If-None-Match` in the next cycle, whatever that cycle's reply. */
  lemma NextCycleIsConditional(config: Option<Config>, stateFile: StateFile, fs: FileSystem, reply: Reply,
                               panel: Panel, nextReply: Reply)
    requires ReplyWellFormed(reply) && ReplyWellFormed(nextReply)
    requires config.Some? && HasRequiredKeys(config.value)
    requires stateFile != Corrupt
    requires reply.Answered? && reply.response.status == 200
    requires Suffix.Resolve(reply.response.headers["Content-Disposition"]).Some?
    requires Transfer.Drain(reply.response.body).complete
    requires Truthy(Header(reply.response.headers, "etag"))
    ensures var out := RunCycle(config, stateFile, fs, reply, panel);
            var next := RunCycle(config, out.stateFile, out.fs, nextReply, panel);
            && out.Finished? && !out.render.NoRender?
            && next.Finished?
            && next.sent.Some?
            && "If-None-Match" in next.sent.value.headers
            && next.sent.value.headers["If-None-Match"] == reply.response.headers["etag"]
  {
    assert "host" in config.value;
    var r := Fetch(config.value, LoadState(stateFile).state, fs, reply);
    assert r.filename.Some?;
    CycleAfterCommit(config, stateFile, fs, reply, panel);
    SaveLoadRoundTrip(r.state);
  }

  /** A cycle whose `fetch` returned a name renders that file and saves the
      state `fetch` left. */
  lemma CycleAfterCommit(config: Option<Config>, stateFile: StateFile, fs: FileSystem, reply: Reply, panel: Panel)
    requires ReplyWellFormed(reply)
    requires ConfigUsable(config) && LoadState(stateFile).Loaded?
    requires Fetch(config.value, LoadState(stateFile).state, fs, reply).filename.Some?
    ensures var r := Fetch(config.value, LoadState(stateFile).state, fs, reply);
            var out := RunCycle(config, stateFile, fs, reply, panel);
            && out.Finished?
            && out.sent == r.sent
            && out.fs == r.fs
            && LoadState(out.stateFile) == Loaded(r.state)
            && r.filename.value in out.fs
            && out.fs[r.filename.value] == Transfer.Drain(reply.response.body).data
            && out.render == Dispatch(r.filename.value, out.fs, panel)
  {
    var r := Fetch(config.value, LoadState(stateFile).state, fs, reply);
    SaveLoadRoundTrip(r.state);
  }

  /** The configuration used by the example cycles. */
  const ExampleConfig: Config := map["host" := "example.com", "path" := "/img", "authorization" := "tok"]

  /** The example configuration passes both the truthiness and the key checks. */
  lemma ExampleConfigUsable()
    ensures ConfigUsable(Some(ExampleConfig)) && HasRequiredKeys(ExampleConfig)
  {
    assert "host" in ExampleConfig;
  }

  /** The reply of the first example cycle: a 200 naming a plain JPEG, with
      the validator `"abc"` under the header name `validatorHeader`. */
  function FreshReply(validatorHeader: string, body: seq<byte>): Reply
  {
    Answered(Response(200,
      map[validatorHeader := "abc", "Content-Disposition" := "attachment; filename=photo.jpg"],
      Transfer.Chunked(body)))
  }

  /** The example disposition names a plain JPEG. */
  lemma PhotoJpgResolves()
    ensures Suffix.Resolve("attachment; filename=photo.jpg") == Some("/sd/latest.jpg")
  {
    var hint := "attachment; filename=photo.jpg";
    assert hint[|hint| - 4..] == ".jpg";
    assert hint[|hint| - 13..] != ".dithered.jpg";
    Suffix.ResolveMatchesClassify(hint);
  }

  /** The `fetch` of the first example cycle commits the body as
      `/sd/latest.jpg` and records `"abc"`. */
  lemma FreshJpegFetch(fs: FileSystem, body: seq<byte>)
    ensures var r := Fetch(ExampleConfig, DefaultState, fs, FreshReply("etag", body));
            && r.filename == Some("/sd/latest.jpg")
            && r.filename.value in r.fs && r.fs["/sd/latest.jpg"] == body
            && TempName !in r.fs
            && r.state == map["etag" := Some("abc")]
            && r.sent.Some? && "If-None-Match" !in r.sent.value.headers
  {
    ExampleConfigUsable();
    PhotoJpgResolves();
    Transfer.DrainChunked(body);
    var resp := FreshReply("etag", body).response;
    assert Header(resp.headers, "etag") == Some("abc");
    assert resp.headers["Content-Disposition"] == "attachment; filename=photo.jpg";
    assert !Truthy(Etag(DefaultState));
    var r := Fetch(ExampleConfig, DefaultState, fs, FreshReply("etag", body));
    assert r.state == map["etag" := Some("abc")];
  }

  /** First cycle against a fresh server: the 500-byte JPEG is committed as
      `/sd/latest.jpg`, rendered with dithering, and its validator saved. */
  lemma ScenarioFreshJpeg(fs: FileSystem, panel: Panel, body: seq<byte>)
    requires |body| == 500
    ensures var out := RunCycle(Some(ExampleConfig), Unreadable, fs, FreshReply("etag", body), panel);
            && out.Finished?
            && out.sent.Some?
            && "If-None-Match" !in out.sent.value.headers
            && "/sd/latest.jpg" in out.fs && out.fs["/sd/latest.jpg"] == body
            && TempName !in out.fs
            && LoadState(out.stateFile) == Loaded(map["etag" := Some("abc")])
            && out.render == Jpeg("/sd/latest.jpg", true)
  {
    ExampleConfigUsable();
    FreshJpegFetch(fs, body);
    var r := Fetch(ExampleConfig, DefaultState, fs, FreshReply("etag", body));
    DispatchByKind(Suffix.CompressedStandard, r.fs, panel);
    CycleAfterCommit(Some(ExampleConfig), Unreadable, fs, FreshReply("etag", body), panel);
  }

  /** The same first cycle against a server that spells the header `ETag`:
      `res.headers.get('etag')` misses it, so the picture is committed and
      shown but the saved validator is `None`, and the next cycle asks
      unconditionally whatever it gets back. */
  lemma CapitalisedETagIsLost(fs: FileSystem, panel: Panel, body: seq<byte>, nextReply: Reply)
    requires ReplyWellFormed(nextReply)
    ensures var out := RunCycle(Some(ExampleConfig), Unreadable, fs, FreshReply("ETag", body), panel);
            && out.Finished?
            && out.render == Jpeg("/sd/latest.jpg", true)
            && "/sd/latest.jpg" in out.fs && out.fs["/sd/latest.jpg"] == body
            && TempName !in out.fs
            && LoadState(out.stateFile).Loaded?
            && Etag(LoadState(out.stateFile).state) == None
            && var next := RunCycle(Some(ExampleConfig), out.stateFile, out.fs, nextReply, panel);
            && next.Finished?
            && next.sent.Some?
            && "If-None-Match" !in next.sent.value.headers
  {
    ExampleConfigUsable();
    PhotoJpgResolves();
    Transfer.DrainChunked(body);
    var reply := FreshReply("ETag", body);
    assert reply.response.headers["Content-Disposition"] == "attachment; filename=photo.jpg";
    assert Header(reply.response.headers, "etag") == None;
    var r := Fetch(ExampleConfig, DefaultState, fs, reply);
    assert r.filename == Some("/sd/latest.jpg");
    CycleAfterCommit(Some(ExampleConfig), Unreadable, fs, reply, panel);
    DispatchByKind(Suffix.CompressedStandard, r.fs, panel);
    assert !Truthy(Etag(r.state));
  }

  /** Second cycle: the server answers 304 to the stored validator; nothing is
      written or rendered and the saved validator stays `"abc"`. */
  lemma ScenarioNotModified(fs: FileSystem, panel: Panel)
    ensures var saved := SaveState(map["etag" := Some("abc")]);
            var reply := Answered(Response(304, map[], []));
            var out := RunCycle(Some(ExampleConfig), saved, fs, reply, panel);
            && out.Finished?
            && out.sent.Some? && out.sent.value.headers["If-None-Match"] == "abc"
            && out.fs == fs
            && out.render == NoRender
            && out.stateFile == saved
            && Etag(LoadState(out.stateFile).state) == Some("abc")
  {
    ExampleConfigUsable();
    var state: State := map["etag" := Some("abc")];
    assert Etag(state) == Some("abc") && Truthy(Etag(state));
  }

  /** An unsupported `.xyz` disposition on a 200: nothing committed, nothing
      rendered, and the new validator is discarded with the cycle. */
  lemma ScenarioUnsupported(stateFile: StateFile, fs: FileSystem, panel: Panel, body: seq<Transfer.ReadStep>)
    requires stateFile != Corrupt
    ensures var reply := Answered(Response(200,
                map["etag" := "def", "Content-Disposition" := "attachment; filename=photo.xyz"], body));
            var out := RunCycle(Some(ExampleConfig), stateFile, fs, reply, panel);
            && out.Finished?
            && out.fs == fs
            && out.render == NoRender
            && out.stateFile == stateFile
  {
    ExampleConfigUsable();
    var hint := "attachment; filename=photo.xyz";
    assert hint[|hint| - 4..] == ".xyz";
    assert hint[|hint| - 13..] != ".dithered.jpg";
    Suffix.UnsupportedResolvesToNone(hint);
  }
}

=== FILE: fetcher.dfy ===
/** `fetch`: the conditional GET of the image, the validator bookkeeping and
    the commit of the body through a temporary file and a rename. The network
    call itself is replaced by the reply it produced. */
module Fetcher {
  import opened Common
  import opened StateStore
  import Suffix
  import Transfer

  /** The parsed configuration dictionary. */
  type Config = map<string, string>

  /** The SD card as a map from path to contents. */
  type FileSystem = map<string, seq<byte>>

  const TempName: string := "/sd/latest.tmp"

  /** The GET that `fetch` issues. */
  datatype Request = Request(url: string, headers: map<string, string>)

  /** A response as the HTTP client hands it over: status, headers keyed
      exactly as received, and the body stream. */
  datatype Response = Response(status: int, headers: map<string, string>, body: seq<Transfer.ReadStep>)

  /** The outcome of `requests.get`: an OSError, or a response. */
  datatype Reply = Unreachable | Answered(response: Response)

  /** What one `fetch` call leaves behind: its return value, the (mutated)
      state dictionary, the file system, and the request it issued, if any
      (on `Unreachable` it may never have left the device). */
  datatype Fetched = Fetched(filename: Option<string>, state: State, fs: FileSystem, sent: Option<Request>)

  /** The three keys `fetch` checks for before issuing anything. */
  predicate HasRequiredKeys(config: Config)
  {
    "host" in config && "path" in config && "authorization" in config
  }

  /** Python truthiness of the stored validator. */
  predicate Truthy(etag: Option<string>)
  {
    etag.Some? && etag.value != ""
  }

  /** `res.headers.get(name)`. */
  function Header(headers: map<string, string>, name: string): Option<string>
  {
    if name in headers then Some(headers[name]) else None
  }

  /** The request of lines 126-137: the credential always, the validator only
      when it is truthy. */
  function BuildRequest(config: Config, state: State): (req: Request)
    requires HasRequiredKeys(config)
    ensures req.headers.Keys <= {"Authorization", "If-None-Match"}
    ensures "Authorization" in req.headers && req.headers["Authorization"] == config["authorization"]
    ensures "If-None-Match" in req.headers <==> Truthy(Etag(state))
    ensures "If-None-Match" in req.headers ==> Some(req.headers["If-None-Match"]) == Etag(state)
  {
    var base := map["Authorization" := config["authorization"]];
    var etag := Etag(state);
    Request("https://" + config["host"] + config["path"],
            if Truthy(etag) then base["If-None-Match" := etag.value] else base)
  }

  /** A 200 answer carries `Content-Disposition`; without it the source
      raises AttributeError, which this model does not follow. */
  predicate ReplyWellFormed(reply: Reply)
  {
    reply.Answered? && reply.response.status == 200 ==> "Content-Disposition" in reply.response.headers
  }

  /** `os.rename`, taken as one atomic update of the file system. */
  function Rename(fs: FileSystem, from: string, to: string): (r: FileSystem)
    requires from in fs
    ensures to in r && r[to] == fs[from]
    ensures from != to ==> from !in r
    ensures forall name | name != from && name != to :: (name in r <==> name in fs) && (name in r ==> r[name] == fs[name])
  {
    (fs - {from})[to := fs[from]]
  }

  /** `fetch(config, state)`. */
  function Fetch(config: Config, state: State, fs: FileSystem, reply: Reply): (r: Fetched)
    requires ReplyWellFormed(reply)
    // a missing host, path or credential: nothing sent, nothing changed
    ensures !HasRequiredKeys(config) ==> r == Fetched(None, state, fs, None)
    // otherwise exactly one GET to https://host+path
    ensures HasRequiredKeys(config) ==>
              r.sent == Some(BuildRequest(config, state))
              && r.sent.value.url == "https://" + config["host"] + config["path"]
    // no 200 (304 included, or no connection): validator and files untouched
    ensures reply.Unreachable? || reply.response.status != 200 ==>
              r.filename == None && r.state == state && r.fs == fs
    // a 200 replaces the in-memory validator, even by None, and nothing else
    ensures HasRequiredKeys(config) && reply.Answered? && reply.response.status == 200 ==>
              && Etag(r.state) == Header(reply.response.headers, "etag")
              && r.state.Keys == state.Keys + {"etag"}
              && (forall k | k in state && k != "etag" :: r.state[k] == state[k])
    // an unsupported disposition commits nothing
    ensures reply.Answered? && reply.response.status == 200
            && Suffix.Resolve(reply.response.headers["Content-Disposition"]).None? ==>
              r.filename == None && r.fs == fs
    // a 200 with a supported disposition and a complete copy returns its destination
    ensures HasRequiredKeys(config) && reply.Answered? && reply.response.status == 200
            && Suffix.Resolve(reply.response.headers["Content-Disposition"]).Some?
            && Transfer.Drain(reply.response.body).complete ==>
              r.filename == Suffix.Resolve(reply.response.headers["Content-Disposition"])
    // a returned name is the resolved destination, now holding the complete copy
    ensures r.filename.Some? ==>
              && HasRequiredKeys(config)
              && reply.Answered? && reply.response.status == 200
              && Suffix.Resolve(reply.response.headers["Content-Disposition"]) == r.filename
              && Transfer.Drain(reply.response.body).complete
              && r.filename.value in r.fs
              && r.fs[r.filename.value] == Transfer.Drain(reply.response.body).data
              && TempName !in r.fs
    // atomic commit: besides the returned destination only the temporary
    // file may change, and it survives only holding an interrupted copy
    ensures forall name | name != TempName && Some(name) != r.filename ::
              (name in r.fs <==> name in fs) && (name in r.fs ==> r.fs[name] == fs[name])
    // an interrupted copy leaves the buffers read so far in the temporary file
    ensures HasRequiredKeys(config) && reply.Answered? && reply.response.status == 200
            && Suffix.Resolve(reply.response.headers["Content-Disposition"]).Some?
            && !Transfer.Drain(reply.response.body).complete ==>
              r.filename == None && r.fs == fs[TempName := Transfer.Drain(reply.response.body).data]
    ensures r.filename.None? && r.fs != fs ==>
              && reply.Answered?
              && !Transfer.Drain(reply.response.body).complete
              && TempName in r.fs
              && r.fs[TempName] == Transfer.Drain(reply.response.body).data
  {
    if !HasRequiredKeys(config) then Fetched(None, state, fs, None)
    else
      var req := Some(BuildRequest(config, state));
      match reply
      case Unreachable => Fetched(None, state, fs, req)
      case Answered(resp) =>
        if resp.status != 200 then Fetched(None, state, fs, req)
        else
          var state' := state["etag" := Header(resp.headers, "etag")];
          var hint := resp.headers["Content-Disposition"];
          match Suffix.Resolve(hint)
          case None => Fetched(None, state', fs, req)
          case Some(dest) =>
            var copied := Transfer.Drain(resp.body);
            var fs' := fs[TempName := copied.data];
            if !copied.complete then Fetched(None, state', fs', req)
            else
              Suffix.ResolvedNameKeepsSuffix(hint);
              assert dest != TempName;
              Fetched(Some(dest), state', Rename(fs', TempName, dest), req)
  }
}

=== FILE: raw_frame.dfy ===
/** `display_bin`: a 64-byte header is skipped, then each of the panel's rows
    is read as `WIDTH/2` bytes of packed 4-bit pixels, low nibble first. */
module RawFrame {
  import opened Common

  /** The panel's frame buffer: pen index per painted (x, y). */
  type Frame = map<(int, int), int>

  const HeaderSize: nat := 64

  /** `int(WIDTH/2)`: the number of packed bytes per row. */
  function RowLength(width: nat): nat
  {
    width / 2
  }

  /** A file offset clipped to the file, where a read starting there ends. */
  function Clip(file: seq<byte>, offset: nat): (r: nat)
    ensures r <= |file| && r <= offset
    ensures r == offset || r == |file|
  {
    if offset <= |file| then offset else |file|
  }

  /** The file offset where row `y` starts: after the header and `y` rows. */
  function RowStart(rowLen: nat, y: nat): (offset: nat)
    ensures offset >= HeaderSize
  {
    if y == 0 then HeaderSize else RowStart(rowLen, y - 1) + rowLen
  }

  /** Row `y` starts at byte `64 + y * rowLen`. */
  lemma {:induction false} RowStartOffset(rowLen: nat, y: nat)
    ensures RowStart(rowLen, y) == HeaderSize + y * rowLen
  {
    if y > 0 {
      RowStartOffset(rowLen, y - 1);
      assert y * rowLen == (y - 1) * rowLen + rowLen;
    }
  }

  /** Later rows start further into the file. */
  lemma {:induction false} RowStartMonotone(rowLen: nat, y: nat, z: nat)
    requires y <= z
    ensures RowStart(rowLen, y) <= RowStart(rowLen, z)
    decreases z
  {
    if y < z {
      RowStartMonotone(rowLen, y, z - 1);
    }
  }

  /** The bytes `f.read(rowLen)` returns for row `y`. */
  function RowAt(file: seq<byte>, rowLen: nat, y: nat): (row: seq<byte>)
    ensures |row| <= rowLen
  {
    file[Clip(file, RowStart(rowLen, y))..Clip(file, RowStart(rowLen, y) + rowLen)]
  }

  /** The pen of the left pixel of a byte, `b & 0xf`. */
  function Low(b: byte): int
  {
    (b & 0xF) as int
  }

  /** The pen of the right pixel of a byte, `b >> 4`. */
  function High(b: byte): int
  {
    (b >> 4) as int
  }

  /** Pixel `p` is painted: its row is on the panel and the row's bytes
      reach its column. */
  predicate Painted(file: seq<byte>, rowLen: nat, height: nat, p: (int, int))
  {
    0 <= p.1 < height && 0 <= p.0 < 2 * |RowAt(file, rowLen, p.1)|
  }

  /** The pen painted at `p`: even columns take the low nibble of byte
      `x / 2` of the row, odd columns its high nibble. */
  function PixelAt(file: seq<byte>, rowLen: nat, p: (int, int)): int
    requires 0 <= p.1 && 0 <= p.0 < 2 * |RowAt(file, rowLen, p.1)|
  {
    var b := RowAt(file, rowLen, p.1)[p.0 / 2];
    if p.0 % 2 == 0 then Low(b) else High(b)
  }

  /** The painted pixels as a finite set, so the frame can be built over it. */
  function PaintedSet(file: seq<byte>, rowLen: nat, height: nat): set<(int, int)>
  {
    set y: nat, x: int | y < height && 0 <= x < 2 * |RowAt(file, rowLen, y)| :: (x, y)
  }

  /** Membership in `PaintedSet` is exactly `Painted`. */
  lemma PaintedSetMembers(file: seq<byte>, rowLen: nat, height: nat)
    ensures forall p :: p in PaintedSet(file, rowLen, height) <==> Painted(file, rowLen, height, p)
  {
    forall p | Painted(file, rowLen, height, p)
      ensures p in PaintedSet(file, rowLen, height)
    {
      var y: nat := p.1;
      assert (p.0, y) == p;
    }
  }

  /** Closed form of the frame `display_bin` leaves: the buffer `fb` it
      starts from, with every painted pixel overwritten. */
  function UnpackFrame(fb: Frame, file: seq<byte>, width: nat, height: nat): Frame
  {
    var rowLen := RowLength(width);
    PaintedSetMembers(file, rowLen, height);
    map p | p in fb.Keys + PaintedSet(file, rowLen, height) ::
      if Painted(file, rowLen, height, p) then PixelAt(file, rowLen, p) else fb[p]
  }

  /** Pixel `p` is painted and comes before the cursor: in an earlier row, or
      in row `y` left of column `x`. */
  predicate PaintedBefore(file: seq<byte>, rowLen: nat, height: nat, y: int, x: int, p: (int, int))
  {
    Painted(file, rowLen, height, p) && (p.1 < y || (p.1 == y && p.0 < x))
  }

  /** `frame` is `fb` with exactly the pixels before the cursor painted. */
  ghost predicate Agrees(frame: Frame, fb: Frame, file: seq<byte>, rowLen: nat, height: nat, y: int, x: int)
  {
    && (forall p :: p in frame <==> p in fb || PaintedBefore(file, rowLen, height, y, x, p))
    && (forall p | p in frame ::
          frame[p] == if PaintedBefore(file, rowLen, height, y, x, p) then PixelAt(file, rowLen, p) else fb[p])
  }

  /** Painting the two pixels of byte `x` of row `y` moves the cursor by two
      columns. */
  lemma PaintStep(frame: Frame, fb: Frame, file: seq<byte>, rowLen: nat, height: nat, y: nat, x: nat)
    requires y < height && x < |RowAt(file, rowLen, y)|
    requires Agrees(frame, fb, file, rowLen, height, y, 2 * x)
    ensures var b := RowAt(file, rowLen, y)[x];
            Agrees(frame[(2 * x, y) := Low(b)][(2 * x + 1, y) := High(b)], fb, file, rowLen, height, y, 2 * x + 2)
  {
    var b := RowAt(file, rowLen, y)[x];
    var frame' := frame[(2 * x, y) := Low(b)][(2 * x + 1, y) := High(b)];
    assert PixelAt(file, rowLen, (2 * x, y)) == Low(b);
    assert PixelAt(file, rowLen, (2 * x + 1, y)) == High(b);
    forall p
      ensures PaintedBefore(file, rowLen, height, y, 2 * x + 2, p) <==>
              PaintedBefore(file, rowLen, height, y, 2 * x, p) || p == (2 * x, y) || p == (2 * x + 1, y)
    {
    }
  }

  /** After the last byte of row `y` the cursor is at the start of row `y + 1`. */
  lemma RowDone(frame: Frame, fb: Frame, file: seq<byte>, rowLen: nat, height: nat, y: nat)
    requires Agrees(frame, fb, file, rowLen, height, y, 2 * |RowAt(file, rowLen, y)|)
    ensures Agrees(frame, fb, file, rowLen, height, y + 1, 0)
  {
    forall p
      ensures PaintedBefore(file, rowLen, height, y + 1, 0, p) <==>
              PaintedBefore(file, rowLen, height, y, 2 * |RowAt(file, rowLen, y)|, p)
    {
    }
  }

  /** Once every row is done the frame is the closed form. */
  lemma AllRowsDone(frame: Frame, fb: Frame, file: seq<byte>, width: nat, height: nat)
    requires Agrees(frame, fb, file, RowLength(width), height, height, 0)
    ensures frame == UnpackFrame(fb, file, width, height)
  {
    var rowLen := RowLength(width);
    var expected := UnpackFrame(fb, file, width, height);
    PaintedSetMembers(file, rowLen, height);
    forall p
      ensures PaintedBefore(file, rowLen, height, height, 0, p) <==> Painted(file, rowLen, height, p)
    {
    }
    assert frame.Keys == expected.Keys;
  }

  /** The loops of `display_bin` as written: skip the header, then read row
      after row from the file cursor and paint two pixels per byte. */
  method DisplayBin(fb: Frame, file: seq<byte>, width: nat, height: nat) returns (frame: Frame)
    ensures frame == UnpackFrame(fb, file, width, height)
  {
    var rowLen := RowLength(width);
    var pos := Clip(file, HeaderSize);
    frame := fb;
    var y: nat := 0;
    while y < height
      invariant y <= height
      invariant pos == Clip(file, RowStart(rowLen, y))
      invariant Agrees(frame, fb, file, rowLen, height, y, 0)
    {
      var next := Clip(file, pos + rowLen);
      var row := file[pos..next];
      assert row == RowAt(file, rowLen, y);
      var x := 0;
      while x < |row|
        invariant x <= |row|
        invariant Agrees(frame, fb, file, rowLen, height, y, 2 * x)
      {
        PaintStep(frame, fb, file, rowLen, height, y, x);
        frame := frame[(2 * x, y) := Low(row[x])][(2 * x + 1, y) := High(row[x])];
        x := x + 1;
      }
      RowDone(frame, fb, file, rowLen, height, y);
      pos := next;
      y := y + 1;
    }
    AllRowsDone(frame, fb, file, width, height);
  }

  /** Both pens of a byte are 4-bit values, and together they give back the
      byte: unpacking loses nothing. */
  lemma NibblesOfByte(b: byte)
    ensures 0 <= Low(b) < 16 && 0 <= High(b) < 16
    ensures Low(b) + 16 * High(b) == b as int
  {
  }

  /** Inside the painted region the frame holds the pixel's pen. */
  lemma UnpackedAt(fb: Frame, file: seq<byte>, width: nat, height: nat, p: (int, int))
    requires Painted(file, RowLength(width), height, p)
    ensures var frame := UnpackFrame(fb, file, width, height);
            p in frame && frame[p] == PixelAt(file, RowLength(width), p)
  {
    PaintedSetMembers(file, RowLength(width), height);
  }

  /** Byte `x` of row `y` is file byte `64 + y * rowLen + x` whenever the
      file reaches it. */
  lemma RowByte(file: seq<byte>, rowLen: nat, y: nat, x: nat)
    requires x < rowLen && HeaderSize + y * rowLen + x < |file|
    ensures x < |RowAt(file, rowLen, y)| && RowAt(file, rowLen, y)[x] == file[HeaderSize + y * rowLen + x]
  {
    RowStartOffset(rowLen, y);
    var start := RowStart(rowLen, y);
    assert Clip(file, start) == start;
  }

  /** The two pixels of byte `x` take its low and its high nibble. */
  lemma PixelsOfByte(file: seq<byte>, rowLen: nat, y: nat, x: nat)
    requires x < |RowAt(file, rowLen, y)|
    ensures PixelAt(file, rowLen, (2 * x, y)) == Low(RowAt(file, rowLen, y)[x])
    ensures PixelAt(file, rowLen, (2 * x + 1, y)) == High(RowAt(file, rowLen, y)[x])
  {
  }

  /** Framing: byte `x` of row `y` is file byte `64 + y * (width / 2) + x`;
      pixel `(2x, y)` gets its low nibble and `(2x + 1, y)` its high one. */
  lemma UnpackedPixelPair(fb: Frame, file: seq<byte>, width: nat, height: nat, y: nat, x: nat)
    requires y < height
    requires x < RowLength(width)
    requires HeaderSize + y * RowLength(width) + x < |file|
    ensures var frame := UnpackFrame(fb, file, width, height);
            var b := file[HeaderSize + y * RowLength(width) + x];
            && (2 * x, y) in frame && frame[(2 * x, y)] == Low(b)
            && (2 * x + 1, y) in frame && frame[(2 * x + 1, y)] == High(b)
  {
    var rowLen := RowLength(width);
    RowByte(file, rowLen, y, x);
    PixelsOfByte(file, rowLen, y, x);
    var b := RowAt(file, rowLen, y)[x];
    var frame := UnpackFrame(fb, file, width, height);
    UnpackedAt(fb, file, width, height, (2 * x, y));
    assert frame[(2 * x, y)] == Low(b);
    UnpackedAt(fb, file, width, height, (2 * x + 1, y));
    assert frame[(2 * x + 1, y)] == High(b);
  }

  /** A pixel outside the painted region, beyond `2 * len(row)` in its row or
      off the panel's rows, keeps whatever the buffer held. */
  lemma UnpackedLeavesOthers(fb: Frame, file: seq<byte>, width: nat, height: nat, p: (int, int))
    requires !(0 <= p.1 < height) || p.0 < 0 || p.0 >= 2 * |RowAt(file, RowLength(width), p.1)|
    ensures var frame := UnpackFrame(fb, file, width, height);
            (p in frame <==> p in fb) && (p in fb ==> frame[p] == fb[p])
  {
    PaintedSetMembers(file, RowLength(width), height);
  }

  /** Every painted pixel lies on the panel and gets a pen in 0..15. */
  lemma UnpackedPensAndBounds(fb: Frame, file: seq<byte>, width: nat, height: nat)
    ensures var frame := UnpackFrame(fb, file, width, height);
            forall p | Painted(file, RowLength(width), height, p) ::
              && p in frame && 0 <= frame[p] < 16
              && 0 <= p.0 < width && 0 <= p.1 < height
  {
    var rowLen := RowLength(width);
    PaintedSetMembers(file, rowLen, height);
    forall p | Painted(file, rowLen, height, p)
      ensures 0 <= PixelAt(file, rowLen, p) < 16
    {
      NibblesOfByte(RowAt(file, rowLen, p.1)[p.0 / 2]);
    }
  }

  /** Two files that differ only in their headers agree on every clipped
      range past the header. */
  lemma RangeIgnoresHeader(file1: seq<byte>, file2: seq<byte>, lo: nat, hi: nat)
    requires |file1| == |file2|
    requires forall i | HeaderSize <= i < |file1| :: file1[i] == file2[i]
    requires HeaderSize <= lo <= hi
    ensures file1[Clip(file1, lo)..Clip(file1, hi)] == file2[Clip(file2, lo)..Clip(file2, hi)]
  {
    var a := Clip(file1, lo);
    var b := Clip(file1, hi);
    forall i | 0 <= i < b - a
      ensures file1[a..b][i] == file2[a..b][i]
    {
      assert file1[a..b][i] == file1[a + i];
      assert file2[a..b][i] == file2[a + i];
    }
  }

  /** Two files that differ only in their headers give the same rows. */
  lemma RowsIgnoreHeader(file1: seq<byte>, file2: seq<byte>, rowLen: nat, y: nat)
    requires |file1| == |file2|
    requires forall i | HeaderSize <= i < |file1| :: file1[i] == file2[i]
    ensures RowAt(file1, rowLen, y) == RowAt(file2, rowLen, y)
  {
    var start := RowStart(rowLen, y);
    RangeIgnoresHeader(file1, file2, start, start + rowLen);
  }

  /** The frame depends on the file only through its rows. */
  lemma SameRowsSameFrame(fb: Frame, file1: seq<byte>, file2: seq<byte>, width: nat, height: nat)
    requires forall y: nat :: RowAt(file1, RowLength(width), y) == RowAt(file2, RowLength(width), y)
    ensures UnpackFrame(fb, file1, width, height) == UnpackFrame(fb, file2, width, height)
  {
    var rowLen := RowLength(width);
    assert PaintedSet(file1, rowLen, height) == PaintedSet(file2, rowLen, height);
    forall p | Painted(file1, rowLen, height, p)
      ensures PixelAt(file1, rowLen, p) == PixelAt(file2, rowLen, p)
    {
    }
  }

  /** The 64 header bytes never influence the frame. */
  lemma HeaderIgnored(fb: Frame, file1: seq<byte>, file2: seq<byte>, width: nat, height: nat)
    requires |file1| == |file2|
    requires forall i | HeaderSize <= i < |file1| :: file1[i] == file2[i]
    ensures UnpackFrame(fb, file1, width, height) == UnpackFrame(fb, file2, width, height)
  {
    forall y: nat
      ensures RowAt(file1, RowLength(width), y) == RowAt(file2, RowLength(width), y)
    {
      RowsIgnoreHeader(file1, file2, RowLength(width), y);
    }
    SameRowsSameFrame(fb, file1, file2, width, height);
  }

  /** Unpacking the same file over its own result changes nothing. */
  lemma UnpackIdempotent(fb: Frame, file: seq<byte>, width: nat, height: nat)
    ensures UnpackFrame(UnpackFrame(fb, file, width, height), file, width, height)
            == UnpackFrame(fb, file, width, height)
  {
    var once := UnpackFrame(fb, file, width, height);
    var twice := UnpackFrame(once, file, width, height);
    PaintedSetMembers(file, RowLength(width), height);
    assert twice.Keys == once.Keys;
  }

  /** A file no longer than the header paints nothing and raises nothing. */
  lemma ShortFileKeepsFrame(fb: Frame, file: seq<byte>, width: nat, height: nat)
    requires |file| <= HeaderSize
    ensures UnpackFrame(fb, file, width, height) == fb
  {
    var rowLen := RowLength(width);
    var frame := UnpackFrame(fb, file, width, height);
    PaintedSetMembers(file, rowLen, height);
    forall p: (int, int) | 0 <= p.1
      ensures RowAt(file, rowLen, p.1) == []
    {
      assert Clip(file, RowStart(rowLen, p.1)) == |file|;
    }
    assert frame.Keys == fb.Keys;
  }

  /** A file holding the header and all `height` rows paints every pixel of
      the `2 * (width / 2)` columns. */
  lemma FullFilePaintsPanel(fb: Frame, file: seq<byte>, width: nat, height: nat)
    requires |file| >= HeaderSize + height * RowLength(width)
    ensures var frame := UnpackFrame(fb, file, width, height);
            forall p: (int, int) | 0 <= p.1 < height && 0 <= p.0 < 2 * RowLength(width) :: p in frame
  {
    var rowLen := RowLength(width);
    PaintedSetMembers(file, rowLen, height);
    RowStartOffset(rowLen, height);
    forall p: (int, int) | 0 <= p.1 < height && 0 <= p.0 < 2 * rowLen
      ensures Painted(file, rowLen, height, p)
    {
      var y: nat := p.1;
      RowStartMonotone(rowLen, y + 1, height);
      assert |RowAt(file, rowLen, y)| == rowLen;
    }
  }
}

=== FILE: state_store.dfy ===
/** The cross-cycle state of `main.py`: a JSON object, normally `{"etag": ...}`,
    kept in `/gallery-state.json` and read by `load_state`, written by
    `save_state`. */
module StateStore {
  import opened Common

  /** The in-memory state dictionary; values are JSON strings or `null`. */
  type State = map<string, Option<string>>

  /** A parsed JSON document: either an object or something else
      (array, number, string, ...). */
  datatype Json = Object(fields: State) | NotObject

  /** What the state file holds from the program's point of view. */
  datatype StateFile =
    | Unreadable          // `open` raises OSError (absent on first run, SD error)
    | Corrupt             // readable, but `json.loads` raises ValueError
    | Stored(doc: Json)   // readable and valid JSON

  /** The outcome of `load_state`: a state, or the ValueError that escapes it. */
  datatype Loaded = Loaded(state: State) | Uncaught

  const StateFileName: string := "/gallery-state.json"

  /** `{"etag": None}`, the state used when no usable file exists. */
  const DefaultState: State := map["etag" := None]

  /** `state.get('etag')`: a missing key reads as `None`. */
  function Etag(state: State): Option<string>
  {
    if "etag" in state then state["etag"] else None
  }

  /** `load_state`: only OSError is caught, and only a JSON object replaces
      the default. */
  function LoadState(file: StateFile): (r: Loaded)
    // only malformed JSON escapes
    ensures r.Uncaught? <==> file == Corrupt
    // a validator can only have come from a stored JSON object
    ensures r.Loaded? && Etag(r.state).Some? ==> file.Stored? && file.doc.Object?
  {
    match file
    case Unreadable => Loaded(DefaultState)
    case Corrupt => Uncaught
    case Stored(Object(fields)) => Loaded(fields)
    case Stored(NotObject) => Loaded(DefaultState)
  }

  /** `save_state`: the whole dictionary is serialised back as one object. */
  function SaveState(state: State): (file: StateFile)
    ensures file.Stored? && file.doc.Object?
  {
    Stored(Object(state))
  }

  /** Saving and loading again gives back the same state, `None` validator
      included. */
  lemma SaveLoadRoundTrip(state: State)
    ensures LoadState(SaveState(state)) == Loaded(state)
    ensures Etag(LoadState(SaveState(state)).state) == Etag(state)
  {
  }

  /** Every readable file that is not a JSON object, and every unreadable one,
      yields the default state, whose validator is `None`; only a corrupt file
      fails. */
  lemma LoadFallback(file: StateFile)
    ensures LoadState(file).Uncaught? <==> file == Corrupt
    ensures file == Unreadable || file == Stored(NotObject) ==>
              LoadState(file) == Loaded(DefaultState) && Etag(LoadState(file).state) == None
  {
  }
}

=== FILE: suffix.dfy ===
/** Resolution of the `Content-Disposition` value to a destination file name
    through the ordered suffix table of `fetch`. */
module Suffix {
  import opened Common

  /** The three artifact kinds the frame can show. */
  datatype Kind = CompressedDithered | CompressedStandard | RawPacked

  /** The table, in the order it is scanned; the first match wins. */
  const Extensions: seq<string> := [".dithered.jpg", ".jpg", ".bin"]

  const DestinationPrefix: string := "/sd/latest"

  /** The index of the first extension at or after `from` that `hint` ends
      with, scanning in table order. */
  function FirstMatchFrom(hint: string, table: seq<string>, from: nat): (r: Option<nat>)
    requires from <= |table|
    ensures r.Some? ==> from <= r.value < |table| && EndsWith(hint, table[r.value])
    ensures r.Some? ==> forall j | from <= j < r.value :: !EndsWith(hint, table[j])
    ensures r.None? <==> forall j | from <= j < |table| :: !EndsWith(hint, table[j])
    decreases |table| - from
  {
    if from == |table| then None
    else if EndsWith(hint, table[from]) then Some(from)
    else FirstMatchFrom(hint, table, from + 1)
  }

  /** The destination file name `fetch` picks for a disposition value, or
      `None` when the content is unsupported. */
  function Resolve(hint: string): (r: Option<string>)
    ensures r.Some? <==> exists e | e in Extensions :: EndsWith(hint, e)
  {
    match FirstMatchFrom(hint, Extensions, 0)
    case Some(i) => Some(DestinationPrefix + Extensions[i])
    case None => None
  }

  /** Independent reference: the kind of a disposition value, checked
      most-specific first. */
  function Classify(hint: string): Option<Kind>
  {
    if EndsWith(hint, ".dithered.jpg") then Some(CompressedDithered)
    else if EndsWith(hint, ".jpg") then Some(CompressedStandard)
    else if EndsWith(hint, ".bin") then Some(RawPacked)
    else None
  }

  /** The fixed destination of each kind. */
  function Destination(kind: Kind): string
  {
    match kind
    case CompressedDithered => "/sd/latest.dithered.jpg"
    case CompressedStandard => "/sd/latest.jpg"
    case RawPacked => "/sd/latest.bin"
  }

  /** The table-driven resolution agrees with the kind classification. */
  lemma ResolveMatchesClassify(hint: string)
    ensures Resolve(hint) == (match Classify(hint)
                              case Some(k) => Some(Destination(k))
                              case None => None)
  {
    var m := FirstMatchFrom(hint, Extensions, 0);
    if EndsWith(hint, ".dithered.jpg") {
      assert m == Some(0);
      assert DestinationPrefix + Extensions[0] == Destination(CompressedDithered);
    } else if EndsWith(hint, ".jpg") {
      assert m == Some(1);
      assert DestinationPrefix + Extensions[1] == Destination(CompressedStandard);
    } else if EndsWith(hint, ".bin") {
      assert m == Some(2);
      assert DestinationPrefix + Extensions[2] == Destination(RawPacked);
    } else {
      assert m == None;
    }
  }

  /** A dithered name also ends in `.jpg`, yet it resolves to the dithered
      destination and never to `/sd/latest.jpg`. */
  lemma MostSpecificWins(hint: string)
    requires EndsWith(hint, ".dithered.jpg")
    ensures EndsWith(hint, ".jpg")
    ensures Resolve(hint) == Some("/sd/latest.dithered.jpg")
  {
    EndsWithTransitive(hint, ".dithered.jpg", ".jpg");
    ResolveMatchesClassify(hint);
  }

  /** A value ending in none of the three suffixes is unsupported. */
  lemma UnsupportedResolvesToNone(hint: string)
    requires !EndsWith(hint, ".dithered.jpg") && !EndsWith(hint, ".jpg") && !EndsWith(hint, ".bin")
    ensures Resolve(hint) == None
  {
    ResolveMatchesClassify(hint);
  }

  /** A resolved name is one of the three destinations and keeps the matched
      suffix, so it ends in `.bin` exactly when the disposition does. */
  lemma ResolvedNameKeepsSuffix(hint: string)
    requires Resolve(hint).Some?
    ensures Resolve(hint).value in {Destination(CompressedDithered), Destination(CompressedStandard), Destination(RawPacked)}
    ensures EndsWith(Resolve(hint).value, ".bin") <==> EndsWith(hint, ".bin")
  {
    ResolveMatchesClassify(hint);
    var name := Resolve(hint).value;
    if Classify(hint) == Some(RawPacked) {
      EndsWithAppended(DestinationPrefix, ".bin");
    } else {
      if Classify(hint) == Some(CompressedDithered) {
        EndsWithTransitive(hint, ".dithered.jpg", ".jpg");
      }
      assert hint[|hint| - 4..][3] == 'g';
      assert name[|name| - 1] == 'g';
    }
  }
}

=== FILE: transfer.dfy ===
/** The body copy of `fetch`: the response stream is read in 1024-byte
    requests and every buffer is written to the temporary file until a read
    comes back short. */
module Transfer {
  import opened Common

  /** The size `fetch` asks the stream for on each read. */
  const BufSize: nat := 1024

  /** One `res.raw.read(1024)`: the bytes it returned, or an OSError. Once the
      steps are used up, every further read returns `b""`. */
  datatype ReadStep = Bytes(data: seq<byte>) | ReadFailed

  /** What the copy leaves in the temporary file, and whether it ended at a
      short read (`complete`) rather than on an OSError. */
  datatype Copied = Copied(data: seq<byte>, complete: bool)

  /** A read that returns a full buffer, so the copy asks for more. */
  predicate IsFull(step: ReadStep)
  {
    step.Bytes? && |step.data| >= BufSize
  }

  /** The bytes the steps delivered, failures contributing none. */
  function Flatten(steps: seq<ReadStep>): seq<byte>
  {
    if |steps| == 0 then []
    else (if steps[0].Bytes? then steps[0].data else []) + Flatten(steps[1..])
  }

  /** Functional reference of the copy loop. */
  function Drain(steps: seq<ReadStep>): Copied
  {
    if |steps| == 0 then Copied([], true)
    else match steps[0]
      case ReadFailed => Copied([], false)
      case Bytes(buf) =>
        if |buf| < BufSize then Copied(buf, true)
        else
          var rest := Drain(steps[1..]);
          Copied(buf + rest.data, rest.complete)
  }

  /** The loop of `fetch` as written: read, write what was read, stop after a
      short read; an OSError ends it early with the partial data written. */
  method CopyBody(steps: seq<ReadStep>) returns (written: seq<byte>, complete: bool)
    ensures Copied(written, complete) == Drain(steps)
  {
    written := [];
    var k := 0;
    while true
      invariant k <= |steps|
      invariant Drain(steps) == Copied(written + Drain(steps[k..]).data, Drain(steps[k..]).complete)
      decreases |steps| - k
    {
      var step := if k < |steps| then steps[k] else Bytes([]);
      if step.ReadFailed? {
        complete := false;
        return;
      }
      written := written + step.data;
      if |step.data| < BufSize {
        complete := true;
        return;
      }
      k := k + 1;
    }
  }

  /** Flattening distributes over concatenation of read sequences. */
  lemma {:induction false} FlattenAppend(a: seq<ReadStep>, b: seq<ReadStep>)
    ensures Flatten(a + b) == Flatten(a) + Flatten(b)
  {
    if |a| == 0 {
      assert a + b == b;
    } else {
      assert (a + b)[1..] == a[1..] + b;
      FlattenAppend(a[1..], b);
    }
  }

  /** Reading stops at the first short buffer: the file holds exactly the
      buffers read up to and including it, whatever the stream holds after. */
  lemma {:induction false} DrainStopsAtShortRead(steps: seq<ReadStep>, k: nat)
    requires k < |steps|
    requires forall i | 0 <= i < k :: IsFull(steps[i])
    requires steps[k].Bytes? && |steps[k].data| < BufSize
    ensures Drain(steps) == Copied(Flatten(steps[..k + 1]), true)
  {
    if k == 0 {
      assert Flatten(steps[..1]) == steps[0].data + Flatten([]);
    } else {
      DrainStopsAtShortRead(steps[1..], k - 1);
      assert steps[..k + 1] == [steps[0]] + steps[1..][..k];
      FlattenAppend([steps[0]], steps[1..][..k]);
    }
  }

  /** A stream that never reads short ends with an empty read: the file holds
      everything delivered. */
  lemma {:induction false} DrainExhausted(steps: seq<ReadStep>)
    requires forall i | 0 <= i < |steps| :: IsFull(steps[i])
    ensures Drain(steps) == Copied(Flatten(steps), true)
  {
    if |steps| > 0 {
      DrainExhausted(steps[1..]);
    }
  }

  /** An OSError after full reads leaves the buffers read so far in the file
      and marks the copy incomplete. */
  lemma {:induction false} DrainFailure(steps: seq<ReadStep>, k: nat)
    requires k < |steps|
    requires forall i | 0 <= i < k :: IsFull(steps[i])
    requires steps[k].ReadFailed?
    ensures Drain(steps) == Copied(Flatten(steps[..k]), false)
  {
    if k > 0 {
      DrainFailure(steps[1..], k - 1);
      assert steps[..k] == [steps[0]] + steps[1..][..k - 1];
      FlattenAppend([steps[0]], steps[1..][..k - 1]);
    }
  }

  /** The reads a well-behaved stream answers for `body`: full buffers, then
      the short (possibly empty) remainder. */
  function Chunked(body: seq<byte>): (steps: seq<ReadStep>)
    ensures forall i | 0 <= i < |steps| :: steps[i].Bytes? && |steps[i].data| <= BufSize
    decreases |body|
  {
    if |body| < BufSize then [Bytes(body)]
    else [Bytes(body[..BufSize])] + Chunked(body[BufSize..])
  }

  /** Copying a well-behaved stream stores the whole body, byte for byte. */
  lemma {:induction false} DrainChunked(body: seq<byte>)
    ensures Drain(Chunked(body)) == Copied(body, true)
    decreases |body|
  {
    if |body| >= BufSize {
      var steps := Chunked(body);
      assert steps[1..] == Chunked(body[BufSize..]);
      DrainChunked(body[BufSize..]);
      assert body[..BufSize] + body[BufSize..] == body;
    }
  }
}
